=== FILE: README.md ===
# Gestisimal warehouse core in Dafny

This project models the data-management core of Gestisimal, a small Java
inventory system. The core has three parts:

- An **Article** is a stock-keeping unit. It holds a numeric code, a name, a
  brand, buying and selling prices, a stock count (`units`), and two advisory
  thresholds (security stock and max stock). Its setters validate their input.
- A **Warehouse** is an ordered list of articles. It can add, delete,
  increment, decrease, return and modify articles, and it can emit its
  contents for saving.
- A **Menu** is the numbered option list of the console front end.

The model follows the Java code as written, including behaviour that looks
unintended:

- Increase and decrease share one guard. It rejects `n` whenever
  `units - n <= 0`. So a decrease to exactly zero is rejected, restocking an
  empty article is rejected, and a negative increase larger than the stock is
  accepted and leaves a negative stock.
- The Warehouse class comment promises that no two articles share a name and
  brand. Nothing enforces this. The duplicate check compares codes only, and
  it never fires while every code came from the counter.
- Warehouse operations check that a code exists by searching for it. They
  then reach the article by position, `articles.get(code)`. After a delete,
  or after a failed add that consumed a code, these operations act on another
  article or throw `IndexOutOfBoundsException`.
- `modifyArticle` has no rollback. When one setter throws, the fields set
  before it keep their new values.

The code's own comments promise more than the code delivers in places.
This model follows the code in each case:

- The Warehouse class comment (`Warehouse.java:33-35`) says no two articles
  may share a name and brand. Nothing enforces this
  (`SameNameAndBrandAddedTwice`).
- The same comment promises that a decrement never takes the stock below
  zero. Decrement keeps that promise: a successful decrease leaves a
  positive stock. Increment breaks the stock invariant, though. An increment
  by a negative amount is accepted whenever `units - n > 0`, and it can leave
  the stock negative (`NegativeIncrementAccepted`).
- The warehouse's own stock check (`Warehouse.java:260-264`) only rejects a
  decrease that would go below zero. A decrease by exactly `units` passes
  it, but then the article's shared guard rejects it (`DecreaseTrichotomy`).
- `returnArticle` documents its result as the article that has the given
  code (`Warehouse.java:166`). It returns the article at index `code`. The
  two are the same only while every code equals its index (`AddThenReturn`,
  `FailedAddBreaksIndexing`, `DeleteMakesIndexDiverge`).

Modelling choices:

- The process-wide static counter `Article.lastCode` becomes an explicit
  `nextCode` field of the warehouse state.
- Java exceptions become values of the `Failures.Error` datatype.
- Every `void` warehouse operation returns an `Outcome`: the state afterwards
  plus `Done` or `Threw(error)`. This keeps visible the effects that survive
  an exception: a consumed code, or a half-applied modification.
- A Java `String` argument that may be `null` is an `Option<string>`.
- Prices are `real`, because only their sign is ever tested.
- Integers are unbounded.

Files: `failures.dfy` (error taxonomy), `articles.dfy` (Article),
`warehouse.dfy` (Warehouse operations), `warehouse_properties.dfy` (lemmas
about them), `persistence.dfy` (the records `save` emits), `menu.dfy` (Menu).

## Model

| member | source | states |
|---|---|---|
| Articles.SetName | src/gestisimal/classes/Article.java:105-108 | Throws an illegal-argument error exactly when the name is null or empty. Otherwise it stores the name and changes no other field. |
| Articles.SetBrand | src/gestisimal/classes/Article.java:126-129 | Throws exactly when the brand is null or empty. Otherwise it stores the brand and changes no other field. |
| Articles.SetBuyingPrice | src/gestisimal/classes/Article.java:147-150 | Throws exactly when the price is negative, so zero is accepted. On success only the buying price changes. |
| Articles.SetSellingPrice | src/gestisimal/classes/Article.java:168-171 | Throws exactly when the price is negative, so zero is accepted. On success only the selling price changes. |
| Articles.SetUnits | src/gestisimal/classes/Article.java:189-192 | Throws exactly when the count is negative. Otherwise it replaces `units` and changes nothing else. |
| Articles.SetSecurityStock | src/gestisimal/classes/Article.java:232-234 | Accepts any integer, negative included. Only the security stock changes. |
| Articles.SetMaxStock | src/gestisimal/classes/Article.java:252-254 | Accepts any integer, negative included. Only the max stock changes. |
| Articles.Create | src/gestisimal/classes/Article.java:37-46 | Succeeds exactly when name and brand are non-empty, both prices are non-negative and units are non-negative. On success the article holds the given code and all seven values. On failure the error comes from the first guard in setter order: string, then price, then units. |
| Articles.IncreaseUnits | src/gestisimal/classes/Article.java:200-203 | Succeeds exactly when `n < units`, which is the shared guard `units - n > 0`. On success units become `units + n` and nothing else changes. |
| Articles.DecreaseUnits | src/gestisimal/classes/Article.java:211-214 | Succeeds exactly when `n < units`. On success units become `units - n`, which is strictly positive, and nothing else changes. |
| Articles.IncreaseOfEmptyStockRejected | src/gestisimal/classes/Article.java:315-319 | When stock is zero or below, any non-negative increase is rejected by the stock guard. |
| Articles.LargeIncreaseRejected | src/gestisimal/classes/Article.java:315-319 | Increasing by at least the current stock is rejected. |
| Articles.NegativeIncreaseMakesStockNegative | src/gestisimal/classes/Article.java:200-203 | Take `0 <= units < k`. Then `increaseUnits(-k)` succeeds and leaves units negative, so the article is no longer valid. |
| Articles.DecreaseToZeroRejected | src/gestisimal/classes/Article.java:211-214 | Decreasing by exactly the current stock is rejected. |
| Articles.StringHash | src/gestisimal/classes/Article.java:256-259 | The Java string hash `31*h + c`, taken modulo 2^32, always lies in the 32-bit range. |
| Articles.Hash | src/gestisimal/classes/Article.java:256-259 | `Objects.hash(brand, name)` lies in the 32-bit range. |
| Articles.EqualsReflexive | src/gestisimal/classes/Article.java:261-271 | Every article equals itself. |
| Articles.EqualsSymmetric | src/gestisimal/classes/Article.java:261-271 | Equality is symmetric. |
| Articles.EqualsTransitive | src/gestisimal/classes/Article.java:261-271 | Equality is transitive. |
| Articles.EqualsNullFalse | src/gestisimal/classes/Article.java:265-266 | No article equals null. |
| Articles.EqualArticlesHashAlike | src/gestisimal/classes/Article.java:256-271 | Equal articles have equal hashes. |
| Articles.DifferentBrandUnequal | src/gestisimal/classes/Article.java:270 | Two articles that differ only in brand are unequal. |
| Articles.DifferentNameUnequal | src/gestisimal/classes/Article.java:270 | Two articles that differ only in name are unequal. |
| Articles.IdentityIgnoresNonKeyFields | src/gestisimal/classes/Article.java:256-271 | Equality and hash depend only on (brand, name). Code, prices, units and thresholds never matter. |
| Articles.Equals | src/gestisimal/classes/Article.java:261-271 | Never holds against null, and equal articles always have equal hashes, so `equals` and `hashCode` agree. |
| Warehouses.Empty | src/gestisimal/classes/Warehouse.java:48-50 | A new warehouse holds no article: every lookup by code throws "not exists". The counter keeps the value it already had. |
| Warehouses.SearchCode | src/gestisimal/classes/Warehouse.java:243-250 | The for-each search finds a match exactly when some stored article has the code. It stops at the first such article. |
| Warehouses.RequireCode | src/gestisimal/classes/Warehouse.java:243-250 | Passes exactly when some stored article has the code. Otherwise it throws "not exists". |
| Warehouses.Get | src/gestisimal/classes/Warehouse.java:149 | `articles.get(index)` throws index-out-of-bounds exactly outside `0..size-1`. Otherwise it yields the article at that position, whatever its code. |
| Warehouses.AddArticle | src/gestisimal/classes/Warehouse.java:114-119 | The counter always advances by one, even on failure. The add succeeds exactly when construction accepts the fields and the new code is not stored. A rejected field throws the illegal-argument error of the first guard that fails in the constructor, the one construction reports. A stored code throws "repeated". On failure the list is unchanged. On success the list grows by one: the old entries are untouched and the new article is last, with the new code and the given values. |
| Warehouses.AddArticleDefaultStocks | src/gestisimal/classes/Warehouse.java:129-131 | The five-argument add always advances the counter. It succeeds exactly when name and brand are non-empty, both prices and the units are non-negative, and the next code is not stored. That is the acceptance condition of the seven-argument add with thresholds 0 and 0. A rejected field throws the first failing guard's illegal-argument error, and an accepted one with a stored code throws "repeated". On success it appends an article with the next code, the given name, brand, prices and units, and both thresholds 0. On failure the list is unchanged. |
| Warehouses.RemoveCode | src/gestisimal/classes/Warehouse.java:139 | `removeIf` keeps exactly the stored articles whose code differs, and none with that code remains. |
| Warehouses.DeleteArticle | src/gestisimal/classes/Warehouse.java:137-140 | Throws "not exists" exactly when no article has the code, and then leaves the state unchanged. Otherwise the new list is `RemoveCode` of the old one: the code is gone, the list is strictly shorter, every other article stays, and the counter is untouched. Order and duplicates follow from `RemoveCodeAppend`. |
| Warehouses.IncrementUnitsOfArticle | src/gestisimal/classes/Warehouse.java:147-150 | A missing code throws "not exists". A code that exists but is not a valid index throws index-out-of-bounds. Otherwise the call succeeds exactly when `n` is below the units of the article AT INDEX `code`, and only that article's units change. When `n` is not below them, it throws the article's illegal-argument stock guard. Any failure leaves the state unchanged. |
| Warehouses.StockCheck | src/gestisimal/classes/Warehouse.java:260-264 | A code that is not an index throws index-out-of-bounds. Otherwise the check throws the stock exception exactly when `units - n < 0`, so a decrease by exactly `units` passes it. |
| Warehouses.DecreaseUnitsOfArticle | src/gestisimal/classes/Warehouse.java:158-162 | A missing code throws "not exists". A stored code that is not an index throws index-out-of-bounds. With the article at index `code`: `n > units` throws the stock exception, and `n == units` passes that check but throws the article's guard. The call succeeds exactly when `n < units`, and then units become `units - n`, which is positive. Any failure leaves the state unchanged. |
| Warehouses.ReturnArticle | src/gestisimal/classes/Warehouse.java:169-177 | A missing code throws "not exists". Otherwise the result is `articles.get(code)`, the article at index `code`, or index-out-of-bounds. |
| Warehouses.ApplySetters | src/gestisimal/classes/Warehouse.java:226-233 | The seven setters run in source order. The resulting article has its first k fields overwritten and the rest old, where k counts the setters that completed. It succeeds exactly when all fields are accepted. On failure it throws the error construction would throw for the same fields. The code never changes. |
| Warehouses.ModifyArticle | src/gestisimal/classes/Warehouse.java:223-234 | Existence is checked, then the index. The article at index `code` is replaced by its partially or fully overwritten version, with no rollback. The call succeeds exactly when all fields are accepted. Otherwise it throws the same first-guard error that constructing an article from those fields would throw. |
| WarehouseProperties.EmptyInv | src/gestisimal/classes/Warehouse.java:48-50 | A new warehouse satisfies the code invariant, and an add to it with valid fields succeeds. |
| WarehouseProperties.CopiedListNeverDuplicates | src/gestisimal/classes/Warehouse.java:99-102 | The list-copying constructor takes articles whose codes all come from the process-wide counter, so they are all below it. An add into the copy then fails exactly when a field is rejected, and never with "repeated". |
| WarehouseProperties.CopiedListMayBeUnordered | src/gestisimal/classes/Warehouse.java:99-102 | The copy keeps the caller's order. Two articles copied in descending code order break the increasing-codes half of the invariant, while every code stays below the counter. |
| WarehouseProperties.AddKeepsInv | src/gestisimal/classes/Warehouse.java:114-119 | Add, successful or not, preserves the invariant: codes strictly increase along the list and stay below the counter. |
| WarehouseProperties.RemoveKeepsIncreasing | src/gestisimal/classes/Warehouse.java:139 | Removing by code keeps codes strictly increasing. |
| WarehouseProperties.DeleteKeepsInv | src/gestisimal/classes/Warehouse.java:137-140 | Delete preserves the invariant. |
| WarehouseProperties.IncrementKeepsInv | src/gestisimal/classes/Warehouse.java:147-150 | Increment preserves the invariant. |
| WarehouseProperties.DecreaseKeepsInv | src/gestisimal/classes/Warehouse.java:158-162 | Decrease preserves the invariant. |
| WarehouseProperties.ModifyKeepsInv | src/gestisimal/classes/Warehouse.java:223-234 | Modify preserves the invariant, even when it stops half-way. |
| WarehouseProperties.DuplicateCheckNeverFires | src/gestisimal/classes/Warehouse.java:188-194 | While every stored code is below the counter, the code-only duplicate check never throws. An add fails exactly when a field is rejected. The invariant implies the premise. |
| WarehouseProperties.DefaultStocksAddIsFullAdd | src/gestisimal/classes/Warehouse.java:129-131 | The five-argument add is, for all inputs, the seven-argument add with both thresholds 0: same state, same status, same error. |
| WarehouseProperties.SameNameAndBrandAddedTwice | src/gestisimal/classes/Warehouse.java:114-119 | The same name and brand can be added twice. Both adds succeed and leave two articles that compare equal, despite the class comment. |
| WarehouseProperties.FailedAddConsumesCode | src/gestisimal/classes/Article.java:38 | A rejected construction still consumes a code. The next accepted article gets the old counter value plus two. |
| WarehouseProperties.RemoveAbsentIsIdentity | src/gestisimal/classes/Warehouse.java:139 | Removing a code that no article holds leaves the list unchanged. |
| WarehouseProperties.RemoveCodeAppend | src/gestisimal/classes/Warehouse.java:139 | Removing from a concatenation removes from each part and keeps the parts in order. This holds whatever the codes, duplicates included. |
| WarehouseProperties.RemoveCodeSingleton | src/gestisimal/classes/Warehouse.java:139 | One article is kept exactly when its code differs. With `RemoveCodeAppend` this fixes the order and multiplicity of what `removeIf` keeps. |
| WarehouseProperties.RemoveIsSplice | src/gestisimal/classes/Warehouse.java:139 | With unique codes, removing the code at index i gives `articles[..i] + articles[i+1..]`. Every other article stays, in its original order. |
| WarehouseProperties.DeleteRemovesOneEntry | src/gestisimal/classes/Warehouse.java:137-140 | Under the invariant, deleting a stored code succeeds and splices out exactly its one entry. |
| WarehouseProperties.DeleteThenReturnFails | src/gestisimal/classes/Warehouse.java:137-177 | After deleting a stored code, returning that code throws "not exists". |
| WarehouseProperties.IndexedLookupAgrees | src/gestisimal/classes/Warehouse.java:169-177 | While every code equals its index, a code exists exactly when it is a valid index, and returning it yields the article with that code. |
| WarehouseProperties.AddKeepsDense | src/gestisimal/classes/Warehouse.java:114-119 | Take codes equal to indices and a counter equal to the length. A valid add succeeds and keeps both properties. |
| WarehouseProperties.AddThenReturn | src/gestisimal/classes/Warehouse.java:114-177 | In such a dense warehouse, adding then returning the new code gives an article with that code and exactly the supplied values. |
| WarehouseProperties.FailedAddBreaksIndexing | src/gestisimal/classes/Warehouse.java:114-177 | After a rejected add, the next accepted article is stored one index below its code. Returning it by its code throws index-out-of-bounds. |
| WarehouseProperties.DeleteMakesIndexDiverge | src/gestisimal/classes/Warehouse.java:137-177 | Start with codes 0, 1, 2 and delete code 0. Incrementing code 1 then changes the article with code 2, returning code 1 yields that same article, and returning code 2 throws index-out-of-bounds. |
| WarehouseProperties.DecreaseTrichotomy | src/gestisimal/classes/Warehouse.java:158-162 | For a stored code that is also a valid index: `n > units` throws the stock exception, `n == units` passes that check but throws the article's guard, and `n < units` yields `units - n`. Units are unchanged on every failure. |
| WarehouseProperties.IncrementAsWritten | src/gestisimal/classes/Warehouse.java:147-150 | For a stored code that is also a valid index, an increment succeeds exactly when `n < units`, giving `units + n`. Otherwise it throws the guard's error and leaves the state unchanged. |
| WarehouseProperties.NegativeIncrementAccepted | src/gestisimal/classes/Warehouse.java:147-150 | A negative increment larger than the stock is accepted and leaves a negative stock. |
| WarehouseProperties.ModifyStopsAtBadPrice | src/gestisimal/classes/Warehouse.java:223-234 | When the buying price is rejected, name and brand already hold their new values. Prices, units and thresholds keep their old ones. |
| WarehouseProperties.ModifyReplacesAllFields | src/gestisimal/classes/Warehouse.java:223-234 | When all fields are accepted, the article holds exactly the new values under its old code. |
| Persistence.Save | src/gestisimal/classes/Warehouse.java:272-342 | One record per article, in list order. Each record carries its article's code and the seven tags in the fixed order Name, Brand, BuyingPrice, SellingPrice, Units, SecurityStock, MaxStock. Each record reads back as its article's seven field values. The target is always "Warehouse.xml", whatever name is passed. |
| Persistence.Emit | src/gestisimal/classes/Warehouse.java:283-324 | The record for one article carries the article's code as its attribute, and seven children in the fixed tag order. |
| Persistence.FirstWithTag | src/gestisimal/classes/Warehouse.java:74-80 | A value found for a tag is one the element really holds under that tag. |
| Persistence.ReadFields | src/gestisimal/classes/Warehouse.java:74-80 | The seven values can be read exactly when every tag finds a child. Name and brand need text content, and the prices accept decimal or integer content as `parseDouble` does. The three counts need integer content. A name and brand read this way are never null. |
| Persistence.MissingChildUnreadable | src/gestisimal/classes/Warehouse.java:74-80 | When any tag finds no child, the element cannot be read. In Java, `item(0)` is then null and reading its text throws. |
| Persistence.FirstWithTagAt | src/gestisimal/classes/Warehouse.java:74-80 | A lookup by tag returns the first child carrying that tag. |
| Persistence.FirstWithTagMissing | src/gestisimal/classes/Warehouse.java:74-80 | A lookup by tag finds nothing exactly when no child carries the tag. |
| Persistence.EmittedChildFound | src/gestisimal/classes/Warehouse.java:291-324 | Looking up any tag in an emitted record finds the value written for it. |
| Persistence.ReadFieldsOfMatching | src/gestisimal/classes/Warehouse.java:74-80 | A record in which every tag finds an article's value reads back as that article's seven field values. |
| Persistence.EmitThenRead | src/gestisimal/classes/Warehouse.java:281-325 | Reading an emitted record back gives exactly the article's seven field values, and the record carries the article's code. |
| Persistence.SaveDeterminesArticles | src/gestisimal/classes/Warehouse.java:281-325 | Two warehouses whose saved documents are equal hold equal article lists, so saving loses nothing. |
| Menus.Remove | src/gestisimal/util/Menu.java:54-63 | Throws index-out-of-bounds exactly when the option is outside 1..lastOption(). Otherwise the header is kept, the count drops by one, and the options are the old ones with the given 1-based entry dropped, in their original order. |
| Menus.Add | src/gestisimal/util/Menu.java:98-102 | The options grow by one. The new option comes last, and the earlier options and the header are unchanged. |
| Menus.Choose | src/gestisimal/util/Menu.java:71-90 | Given the integers that successive `leerOpciones` calls return, it returns only one of them that lies in 1..lastOption(). It returns none exactly when none of them is in range. |
| Menus.ChooseTakesFirstValid | src/gestisimal/util/Menu.java:83-85 | The chosen option is the first entry in range. Every earlier entry was rejected. |
| Menus.AddThenRemoveLast | src/gestisimal/util/Menu.java:98-116 | After an add, lastOption() is one larger and the new option's number is in range. Removing that number restores the old options. |
| Menus.WithoutKeepsOrder | src/gestisimal/util/Menu.java:58-62 | Removing the i-th option shifts every later option down by one. The earlier options stay where they are. |

## Left out

- XML parsing and writing are library I/O and are not modelled. This covers the DOM document, the `Transformer`, the file writer and the decimal text of `Double.toString`/`parseDouble`. `save` is modelled only as the records it emits.
- `save` swallows `DOMException` and prints the other exceptions. Error reporting is I/O and is not modelled.
- The loading constructor `Warehouse(String route)` is not modelled as a whole. It never initialises `articles`, so adding the first loaded element throws `NullPointerException`. A save/load round trip therefore does not exist in the code. Only its per-element field extraction is modelled, by `Persistence.ReadFields`.
- `toString` of Article, Warehouse and Menu is display only.
- `getCode`/`setCode` and the other getters are not modelled. The getters are field reads. `setCode` is never called by the core.
- Aliasing of `Article` objects is not modelled: articles are values here. `returnArticle` returns a reference in Java, so a caller could mutate a stored article through it; here the returned value is a copy. The list-copying constructor copies the list but shares the `Article` objects with the caller. A caller list holding one object at two positions would see an update at one position in both places in Java, but only at that position here.
- The static counter is shared by all warehouses in a process. Here each warehouse carries its own `nextCode`. Several warehouses sharing one counter are not modelled.
- Articles.IncreaseUnits: does not model 32-bit wrap-around of `this.units - units` and `units += n`. Integers are unbounded, so a guard that overflows in Java is not reproduced.
- Articles.DecreaseUnits: does not model 32-bit wrap-around of `this.units - units` and `units -= n`, for the same reason.
- Articles.SetName: models the reference test `name == ""` as emptiness. A non-interned empty string passes the Java test but is rejected here. The same holds for `SetBrand` and `Create`.
- Articles.StringHash: hashes each character by its code point. Java hashes UTF-16 code units, so characters outside the Basic Multilingual Plane hash differently.
- Persistence.ReadFields: refuses numeric content under Name or Brand. `getTextContent` would read it as text, but turning a number back into its text is number formatting, which is not modelled.
- NaN prices are not modelled. Prices are `real`, and a NaN price passes the Java `< 0` test.
- Menus.Choose: the console loop, the prompts and the `Scanner` reads are not modelled. Its input is the sequence of integers that successive `leerOpciones` calls return. It is not the lines the user types, because after a rejected entry the extra `sc.nextLine()` (`Menu.java:87`) swallows one more line. In Java, `nextInt` throws `NoSuchElementException` at end of input and `InputMismatchException` on a non-number. Here `None` stands for the entries running out, and non-numeric input is not modelled.
- The Menu header, its setter and its printing are display only.
- The sources of `WarehouseArticleRepeatedException` and `ArticleStockException` are not part of this model. They appear only as `Error` constructors. The stderr print in the `WarehouseArticleNotExistsException` constructor is I/O.
- The console test driver `TestWarehouse` is a caller of the core, not part of it.

=== FILE: articles.dfy ===
/**
 The Article entity: a stock-keeping unit with a numeric code, a
 (name, brand) identity, two prices, a stock count and two advisory
 thresholds, together with its self-validating mutators.

 Java's `double` prices are modelled as `real` (only their sign is ever
 inspected) and Java's `int` as unbounded `int`. A Java `String` argument
 that may be `null` is an `Option<string>`; a stored name or brand has
 passed validation and is therefore a plain `string`.
 */
module Articles {
  import opened Failures

  datatype Article = Article(
    code: int,
    name: string,
    brand: string,
    buyingPrice: real,
    sellingPrice: real,
    units: int,
    securityStock: int,
    maxStock: int)

  /** The field values a caller supplies to construct or overwrite an article. */
  datatype Fields = Fields(
    name: Option<string>,
    brand: Option<string>,
    buyingPrice: real,
    sellingPrice: real,
    units: int,
    securityStock: int,
    maxStock: int)

  /** A string the name/brand guard accepts: neither null nor empty. */
  predicate ValidString(s: Option<string>) {
    s.Some? && s.value != []
  }

  /** What construction and the setters establish (increase may later break `units >= 0`). */
  predicate Validated(a: Article) {
    && a.name != []
    && a.brand != []
    && a.buyingPrice >= 0.0
    && a.sellingPrice >= 0.0
    && a.units >= 0
  }

  /** Every validated field of `f` passes its guard. */
  predicate AcceptedFields(f: Fields) {
    && ValidString(f.name)
    && ValidString(f.brand)
    && f.buyingPrice >= 0.0
    && f.sellingPrice >= 0.0
    && f.units >= 0
  }

  /** `a` holds exactly the values of `f`, under code `code`. */
  predicate Holds(a: Article, code: int, f: Fields)
    requires AcceptedFields(f)
  {
    && a.code == code
    && a.name == f.name.value
    && a.brand == f.brand.value
    && a.buyingPrice == f.buyingPrice
    && a.sellingPrice == f.sellingPrice
    && a.units == f.units
    && a.securityStock == f.securityStock
    && a.maxStock == f.maxStock
  }

  // ---------------------------------------------------------------------
  // Setters. Each validated setter throws before touching its field.
  // ---------------------------------------------------------------------

  function SetName(a: Article, name: Option<string>): (r: Result<Article>)
    ensures r.Ok? <==> ValidString(name)
    ensures r.Fail? ==> r.error == IllegalArgument(InvalidString)
    ensures r.Ok? ==> r.value.name == name.value && r.value == a.(name := r.value.name)
    ensures r.Ok? && Validated(a) ==> Validated(r.value)
  {
    if !ValidString(name) then Fail(IllegalArgument(InvalidString))
    else Ok(a.(name := name.value))
  }

  function SetBrand(a: Article, brand: Option<string>): (r: Result<Article>)
    ensures r.Ok? <==> ValidString(brand)
    ensures r.Fail? ==> r.error == IllegalArgument(InvalidString)
    ensures r.Ok? ==> r.value.brand == brand.value && r.value == a.(brand := r.value.brand)
    ensures r.Ok? && Validated(a) ==> Validated(r.value)
  {
    if !ValidString(brand) then Fail(IllegalArgument(InvalidString))
    else Ok(a.(brand := brand.value))
  }

  function SetBuyingPrice(a: Article, price: real): (r: Result<Article>)
    ensures r.Ok? <==> price >= 0.0
    ensures r.Fail? ==> r.error == IllegalArgument(NegativePrice)
    ensures r.Ok? ==> r.value.buyingPrice == price && r.value == a.(buyingPrice := r.value.buyingPrice)
    ensures r.Ok? && Validated(a) ==> Validated(r.value)
  {
    if price < 0.0 then Fail(IllegalArgument(NegativePrice))
    else Ok(a.(buyingPrice := price))
  }

  function SetSellingPrice(a: Article, price: real): (r: Result<Article>)
    ensures r.Ok? <==> price >= 0.0
    ensures r.Fail? ==> r.error == IllegalArgument(NegativePrice)
    ensures r.Ok? ==> r.value.sellingPrice == price && r.value == a.(sellingPrice := r.value.sellingPrice)
    ensures r.Ok? && Validated(a) ==> Validated(r.value)
  {
    if price < 0.0 then Fail(IllegalArgument(NegativePrice))
    else Ok(a.(sellingPrice := price))
  }

  function SetUnits(a: Article, units: int): (r: Result<Article>)
    ensures r.Ok? <==> units >= 0
    ensures r.Fail? ==> r.error == IllegalArgument(NegativeUnits)
    ensures r.Ok? ==> r.value.units == units && r.value == a.(units := r.value.units)
    ensures r.Ok? && a.name != [] && a.brand != [] && a.buyingPrice >= 0.0 && a.sellingPrice >= 0.0
      ==> Validated(r.value)
  {
    if units < 0 then Fail(IllegalArgument(NegativeUnits))
    else Ok(a.(units := units))
  }

  /** No guard: any integer, negative included, is stored. */
  function SetSecurityStock(a: Article, securityStock: int): (r: Article)
    ensures r.securityStock == securityStock && r == a.(securityStock := r.securityStock)
    ensures Validated(a) ==> Validated(r)
  {
    a.(securityStock := securityStock)
  }

  /** No guard: any integer, negative included, is stored. */
  function SetMaxStock(a: Article, maxStock: int): (r: Article)
    ensures r.maxStock == maxStock && r == a.(maxStock := r.maxStock)
    ensures Validated(a) ==> Validated(r)
  {
    a.(maxStock := maxStock)
  }

  // ---------------------------------------------------------------------
  // Construction
  // ---------------------------------------------------------------------

  /**
   Builds an article with the code the process-wide counter held, running
   the setters in the constructor's order: name, brand, buying price,
   selling price, units, security stock, max stock. The first setter that
   throws decides the error; the half-built object is discarded. Advancing
   the counter is the caller's business (it happens before validation).
   */
  function Create(code: int, f: Fields): (r: Result<Article>)
    ensures r.Ok? <==> AcceptedFields(f)
    ensures r.Ok? ==> Holds(r.value, code, f) && Validated(r.value)
    ensures !ValidString(f.name) ==> r == Fail(IllegalArgument(InvalidString))
    ensures ValidString(f.name) && !ValidString(f.brand) ==> r == Fail(IllegalArgument(InvalidString))
    ensures ValidString(f.name) && ValidString(f.brand) && (f.buyingPrice < 0.0 || f.sellingPrice < 0.0)
      ==> r == Fail(IllegalArgument(NegativePrice))
    ensures ValidString(f.name) && ValidString(f.brand) && f.buyingPrice >= 0.0 && f.sellingPrice >= 0.0 && f.units < 0
      ==> r == Fail(IllegalArgument(NegativeUnits))
  {
    // Java leaves the object's fields at their defaults until each setter runs;
    // the placeholder strings below are never observable.
    var blank := Article(code, "", "", 0.0, 0.0, 0, 0, 0);
    var a1 :- SetName(blank, f.name);
    var a2 :- SetBrand(a1, f.brand);
    var a3 :- SetBuyingPrice(a2, f.buyingPrice);
    var a4 :- SetSellingPrice(a3, f.sellingPrice);
    var a5 :- SetUnits(a4, f.units);
    var a6 := SetSecurityStock(a5, f.securityStock);
    Ok(SetMaxStock(a6, f.maxStock))
  }

  /** The five-argument constructor: both thresholds default to zero. */
  function WithDefaultStocks(name: Option<string>, brand: Option<string>, buyingPrice: real,
                             sellingPrice: real, units: int): Fields
  {
    Fields(name, brand, buyingPrice, sellingPrice, units, 0, 0)
  }

  // ---------------------------------------------------------------------
  // Stock mutation. Increase and decrease share one guard, which rejects
  // whenever `units - n <= 0`, for an increase as much as for a decrease.
  // ---------------------------------------------------------------------

  /** The shared guard: passes only while subtracting `n` leaves a positive stock. */
  predicate StockGuardPasses(a: Article, n: int) {
    a.units - n > 0
  }

  function IncreaseUnits(a: Article, n: int): (r: Result<Article>)
    ensures r.Ok? <==> n < a.units
    ensures r.Fail? ==> r.error == IllegalArgument(StockGuard)
    ensures r.Ok? ==> r.value.units == a.units + n && r.value == a.(units := r.value.units)
  {
    if !StockGuardPasses(a, n) then Fail(IllegalArgument(StockGuard))
    else Ok(a.(units := a.units + n))
  }

  function DecreaseUnits(a: Article, n: int): (r: Result<Article>)
    ensures r.Ok? <==> n < a.units
    ensures r.Fail? ==> r.error == IllegalArgument(StockGuard)
    ensures r.Ok? ==> r.value.units == a.units - n && r.value == a.(units := r.value.units)
    ensures r.Ok? ==> r.value.units > 0
  {
    if !StockGuardPasses(a, n) then Fail(IllegalArgument(StockGuard))
    else Ok(a.(units := a.units - n))
  }

  // ---------------------------------------------------------------------
  // Stock lemmas: the behaviour of the shared guard as written
  // ---------------------------------------------------------------------

  /** An empty (or negative) stock can never be increased by a non-negative amount. */
  lemma IncreaseOfEmptyStockRejected(a: Article, n: int)
    requires a.units <= 0 && n >= 0
    ensures IncreaseUnits(a, n) == Fail(IllegalArgument(StockGuard))
  {
  }

  /** Increasing by at least the current stock is rejected, however large the stock. */
  lemma LargeIncreaseRejected(a: Article, n: int)
    requires n >= a.units
    ensures IncreaseUnits(a, n).Fail?
  {
  }

  /** A negative increase larger than the stock succeeds and drives units below zero. */
  lemma NegativeIncreaseMakesStockNegative(a: Article, k: int)
    requires 0 <= a.units < k
    ensures IncreaseUnits(a, -k).Ok?
    ensures IncreaseUnits(a, -k).value.units < 0
    ensures !Validated(IncreaseUnits(a, -k).value)
  {
  }

  /** Decreasing to exactly zero is rejected by the guard. */
  lemma DecreaseToZeroRejected(a: Article)
    ensures DecreaseUnits(a, a.units) == Fail(IllegalArgument(StockGuard))
  {
  }

  // ---------------------------------------------------------------------
  // Equality and hashing over (brand, name)
  // ---------------------------------------------------------------------

  /**
   `equals`: another article is equal exactly when it is non-null and
   carries the same brand and name; code, prices and stock are ignored.
   */
  function Equals(a: Article, other: Option<Article>): (r: bool)
    ensures other.None? ==> !r
    ensures r ==> Hash(a) == Hash(other.value)
  {
    other.Some? && a.brand == other.value.brand && a.name == other.value.name
  }

  const HashModulus: nat := 0x1_0000_0000

  /**
   Java's `String.hashCode`, `h = 31 * h + c` over the characters, with the
   32-bit wrap-around made explicit (the result is the unsigned reading of
   the Java `int`).
   */
  function StringHash(s: string): (h: nat)
    ensures h < HashModulus
  {
    if s == [] then 0
    else (31 * StringHash(s[..|s| - 1]) + s[|s| - 1] as int) % HashModulus
  }

  /** `hashCode` is `Objects.hash(brand, name)`: the array hash of [brand, name]. */
  function Hash(a: Article): (h: nat)
    ensures h < HashModulus
  {
    var afterBrand := (31 * 1 + StringHash(a.brand)) % HashModulus;
    (31 * afterBrand + StringHash(a.name)) % HashModulus
  }

  lemma EqualsReflexive(a: Article)
    ensures Equals(a, Some(a))
  {
  }

  lemma EqualsSymmetric(a: Article, b: Article)
    ensures Equals(a, Some(b)) <==> Equals(b, Some(a))
  {
  }

  lemma EqualsTransitive(a: Article, b: Article, c: Article)
    requires Equals(a, Some(b)) && Equals(b, Some(c))
    ensures Equals(a, Some(c))
  {
  }

  /** Equality never holds against null. */
  lemma EqualsNullFalse(a: Article)
    ensures !Equals(a, None)
  {
  }

  /** Equal articles have equal hashes, whatever their code, prices or stock. */
  lemma EqualArticlesHashAlike(a: Article, b: Article)
    requires Equals(a, Some(b))
    ensures Hash(a) == Hash(b)
  {
  }

  /** Articles differing only in brand are unequal. */
  lemma DifferentBrandUnequal(a: Article, brand: string)
    requires brand != a.brand
    ensures !Equals(a, Some(a.(brand := brand)))
  {
  }

  /** Articles differing only in name are unequal. */
  lemma DifferentNameUnequal(a: Article, name: string)
    requires name != a.name
    ensures !Equals(a, Some(a.(name := name)))
  {
  }

  /** Changing code, prices or stock never affects equality or the hash. */
  lemma IdentityIgnoresNonKeyFields(a: Article, code: int, buyingPrice: real, sellingPrice: real,
                                    units: int, securityStock: int, maxStock: int)
    ensures var b := Article(code, a.name, a.brand, buyingPrice, sellingPrice, units, securityStock, maxStock);
      Equals(a, Some(b)) && Hash(a) == Hash(b)
  {
  }
}

=== FILE: failures.dfy ===
/**
 The error taxonomy of the inventory system and the failure-compatible
 wrappers every operation returns instead of throwing.

 Each Java exception the core can raise becomes one constructor of `Error`.
 `ArticleIllegalArgumentException` is raised by four different guards of the
 Article class with four different messages; `Violation` records which guard
 fired, so that contracts can say which check rejected an input.
 */
module Failures {

  /** Which Article guard rejected a value. */
  datatype Violation =
    | InvalidString     // name or brand is null or empty
    | NegativePrice     // buying or selling price below zero
    | NegativeUnits     // setUnits with a negative count
    | StockGuard        // increase/decrease with units - n <= 0

  datatype Error =
    | IllegalArgument(violation: Violation)  // ArticleIllegalArgumentException
    | ArticleRepeated                        // WarehouseArticleRepeatedException
    | ArticleNotExists                       // WarehouseArticleNotExistsException
    | StockBelowZero                         // ArticleStockException
    | IndexOutOfBounds                       // java.lang.IndexOutOfBoundsException

  /** A possibly absent value; for a Java reference, `None` is `null`. */
  datatype Option<+T> = None | Some(value: T)

  /** The value of an operation that either returns normally or throws. */
  datatype Result<+T> = Ok(value: T) | Fail(error: Error) {
    predicate IsFailure() {
      Fail?
    }

    function PropagateFailure<U>(): Result<U>
      requires Fail?
    {
      Fail(error)
    }

    function Extract(): T
      requires Ok?
    {
      value
    }
  }

  /** Completion of a `void` Java method: it returned, or it threw `error`. */
  datatype Status = Done | Threw(error: Error)
}

=== FILE: menu.dfy ===
/**
 The numbered option list of the console menu: appending and removing
 options, the number of the last option, and the range test `choose`
 applies to what the user types.

 The header is kept for completeness; printing and keyboard input are not
 modelled, except that `Choose` takes the user's entries as a sequence.
 */
module Menus {
  import opened Failures

  datatype Menu = Menu(header: Option<string>, options: seq<string>)

  /** `lastOption`: options are numbered from 1, so the last number is the count. */
  function LastOption(m: Menu): nat {
    |m.options|
  }

  /** The range test of `choose`: option numbers run from 1 to `lastOption()`. */
  predicate InRange(m: Menu, option: int) {
    1 <= option <= LastOption(m)
  }

  /** `add`: the array grows by one and the new option comes last. */
  function Add(m: Menu, option: string): (r: Menu)
    ensures |r.options| == |m.options| + 1
    ensures r.options[|m.options|] == option
    ensures r.options[..|m.options|] == m.options
    ensures r.header == m.header
  {
    m.(options := m.options + [option])
  }

  /** Reference definition: the list with its `option`-th entry (counted from 1) dropped. */
  function Without(options: seq<string>, option: int): seq<string>
    requires 1 <= option <= |options|
  {
    options[..option - 1] + options[option..]
  }

  /**
   `remove`: reject a number outside 1..lastOption(); otherwise copy all
   but the last slot, then shift every entry after the removed one down.
   */
  method Remove(m: Menu, option: int) returns (r: Result<Menu>)
    ensures r.Fail? <==> !InRange(m, option)
    ensures r.Fail? ==> r.error == IndexOutOfBounds
    ensures r.Ok? ==> r.value.header == m.header
    ensures r.Ok? ==> LastOption(r.value) == LastOption(m) - 1
    ensures r.Ok? ==> r.value.options == Without(m.options, option)
  {
    var n := |m.options|;
    if option < 1 || option > n {
      return Fail(IndexOutOfBounds);
    }
    var shifted := new string[n - 1](k => if 0 <= k < n - 1 then m.options[k] else "");
    var i := option;
    while i < n
      invariant option <= i <= n
      invariant forall k | 0 <= k < option - 1 :: shifted[k] == m.options[k]
      invariant forall k | option - 1 <= k < i - 1 :: shifted[k] == m.options[k + 1]
    {
      shifted[i - 1] := m.options[i];
      i := i + 1;
    }
    WithoutKeepsOrder(m.options, option);
    assert shifted[..] == Without(m.options, option);
    r := Ok(m.(options := shifted[..]));
  }

  /**
   `choose`, given the integers that successive `leerOpciones` calls return:
   the first one in range is returned; one out of range is rejected and the
   next one is read. `None` stands for the entries running out, where the
   Java `Scanner` would throw instead.
   */
  function Choose(m: Menu, entries: seq<int>): (r: Option<int>)
    ensures r.Some? ==> InRange(m, r.value) && r.value in entries
    ensures r.None? <==> forall k | 0 <= k < |entries| :: !InRange(m, entries[k])
  {
    if entries == [] then None
    else if InRange(m, entries[0]) then Some(entries[0])
    else Choose(m, entries[1..])
  }

  /** Every entry before the chosen one was out of range. */
  lemma {:induction false} ChooseTakesFirstValid(m: Menu, entries: seq<int>, k: int)
    requires 0 <= k < |entries| && InRange(m, entries[k])
    requires forall j | 0 <= j < k :: !InRange(m, entries[j])
    ensures Choose(m, entries) == Some(entries[k])
    decreases k
  {
    if k > 0 {
      ChooseTakesFirstValid(m, entries[1..], k - 1);
    }
  }

  /** Adding an option makes it the new last option; removing it again restores the menu. */
  lemma AddThenRemoveLast(m: Menu, option: string)
    ensures LastOption(Add(m, option)) == LastOption(m) + 1
    ensures InRange(Add(m, option), LastOption(m) + 1)
    ensures Without(Add(m, option).options, LastOption(m) + 1) == m.options
  {
    var opts := Add(m, option).options;
    assert opts[..|m.options|] == m.options;
    assert opts[|m.options| + 1..] == [];
  }

  /** Removing keeps the order of the remaining options and drops exactly one of them. */
  lemma WithoutKeepsOrder(options: seq<string>, option: int)
    requires 1 <= option <= |options|
    ensures |Without(options, option)| == |options| - 1
    ensures forall k | 0 <= k < option - 1 :: Without(options, option)[k] == options[k]
    ensures forall k | option - 1 <= k < |options| - 1 :: Without(options, option)[k] == options[k + 1]
  {
  }
}

=== FILE: persistence.dfy ===
/**
 The record structure `save` emits, without the XML library behind it.

 `save` builds a document whose root is `Warehouse` and which holds one
 `Article` element per stored article, in list order; each carries a `Code`
 attribute and seven child elements in a fixed order. The document is
 always written to `Warehouse.xml`, whatever name the caller passes.

 The per-article field extraction of the loading constructor is modelled
 too, as `ReadFields`: it looks each child up by tag and ignores the code.
 The loading constructor as a whole is not modelled (see the README).
 */
module Persistence {
  import opened Failures
  import opened Articles
  import opened Warehouses

  /** The text content of a child element, before or after number formatting. */
  datatype Value = Text(text: string) | Decimal(amount: real) | Integer(number: int)

  /** The child element names, as written in the document. */
  datatype Tag = Name | Brand | BuyingPrice | SellingPrice | Units | SecurityStock | MaxStock

  datatype Element = Element(tag: Tag, value: Value)

  /** One `<Article Code="...">` element and its children. */
  datatype ArticleElement = ArticleElement(code: int, children: seq<Element>)

  /** The document `save` builds and the file it writes it to. */
  datatype Document = Document(fileName: string, root: string, articles: seq<ArticleElement>)

  const OutputFile := "Warehouse.xml"
  const RootTag := "Warehouse"
  const FieldTags: seq<Tag> :=
    [Name, Brand, BuyingPrice, SellingPrice, Units, SecurityStock, MaxStock]

  /** The tags of a list of elements, in order. */
  function Tags(children: seq<Element>): seq<Tag> {
    seq(|children|, k requires 0 <= k < |children| => children[k].tag)
  }

  /**
   The `Article` element for one article: its code as the attribute, then
   one child per field in the fixed tag order, each holding that field.
   */
  function Emit(a: Article): (e: ArticleElement)
    ensures e.code == a.code
    ensures Tags(e.children) == FieldTags
  {
    ArticleElement(a.code, [
      Element(Name, Text(a.name)),
      Element(Brand, Text(a.brand)),
      Element(BuyingPrice, Decimal(a.buyingPrice)),
      Element(SellingPrice, Decimal(a.sellingPrice)),
      Element(Units, Integer(a.units)),
      Element(SecurityStock, Integer(a.securityStock)),
      Element(MaxStock, Integer(a.maxStock))])
  }

  /**
   `save(fileName)`: one element per article, in list order; `fileName` is
   ignored. Every element reads back as the field values of its article.
   */
  function Save(w: Warehouse, fileName: string): (d: Document)
    ensures d.fileName == OutputFile && d.root == RootTag
    ensures |d.articles| == |w.articles|
    ensures forall i | 0 <= i < |w.articles| ::
      && d.articles[i].code == w.articles[i].code
      && Tags(d.articles[i].children) == FieldTags
      && ReadFields(d.articles[i]) == Some(FieldsOf(w.articles[i]))
  {
    EmitAllThenRead(w.articles);
    Document(OutputFile, RootTag,
             seq(|w.articles|, i requires 0 <= i < |w.articles| => Emit(w.articles[i])))
  }

  // ---------------------------------------------------------------------
  // Reading an element back, as the loading constructor's loop body does
  // ---------------------------------------------------------------------

  /** `getElementsByTagName(tag).item(0)`: the first child with that tag, if any. */
  function FirstWithTag(children: seq<Element>, tag: Tag): (r: Option<Value>)
    ensures r.Some? ==> Element(tag, r.value) in children
  {
    if children == [] then None
    else if children[0].tag == tag then Some(children[0].value)
    else FirstWithTag(children[1..], tag)
  }

  /** The lookup returns the child at `k` when it is the first carrying the tag. */
  lemma {:induction false} FirstWithTagAt(children: seq<Element>, tag: Tag, k: int)
    requires 0 <= k < |children| && children[k].tag == tag
    requires forall j | 0 <= j < k :: children[j].tag != tag
    ensures FirstWithTag(children, tag) == Some(children[k].value)
    decreases k
  {
    if k > 0 {
      FirstWithTagAt(children[1..], tag, k - 1);
    }
  }

  /** The lookup fails exactly when no child carries the tag, as `item(0)` then yields null. */
  lemma {:induction false} FirstWithTagMissing(children: seq<Element>, tag: Tag)
    ensures FirstWithTag(children, tag).None? <==> forall k | 0 <= k < |children| :: children[k].tag != tag
  {
    if children != [] && children[0].tag != tag {
      FirstWithTagMissing(children[1..], tag);
      assert forall k | 1 <= k < |children| :: children[k] == children[1..][k - 1];
    }
  }

  /** The child found for `tag` is present and its content parses as that field's type. */
  predicate AsKind(tag: Tag, v: Option<Value>) {
    match tag
    case Name => AsText(v).Some?
    case Brand => AsText(v).Some?
    case BuyingPrice => AsDecimal(v).Some?
    case SellingPrice => AsDecimal(v).Some?
    case Units => AsInteger(v).Some?
    case SecurityStock => AsInteger(v).Some?
    case MaxStock => AsInteger(v).Some?
  }

  /** Every tag finds a child whose content parses as that field's type. */
  predicate Complete(e: ArticleElement) {
    forall tag :: AsKind(tag, FirstWithTag(e.children, tag))
  }

  function AsText(v: Option<Value>): Option<string> {
    if v.Some? && v.value.Text? then Some(v.value.text) else None
  }

  /** `Double.parseDouble` also accepts an integer literal. */
  function AsDecimal(v: Option<Value>): Option<real> {
    if v.Some? && v.value.Decimal? then Some(v.value.amount)
    else if v.Some? && v.value.Integer? then Some(v.value.number as real)
    else None
  }

  function AsInteger(v: Option<Value>): Option<int> {
    if v.Some? && v.value.Integer? then Some(v.value.number) else None
  }

  /**
   The seven field values of one `Article` element, each taken from the
   first child with its tag; the `Code` attribute is not read. `None` when
   a child is missing or its content does not parse.
   */
  function ReadFields(e: ArticleElement): (r: Option<Fields>)
    ensures r.Some? <==> Complete(e)
    ensures r.Some? ==> r.value.name.Some? && r.value.brand.Some?
  {
    var c := e.children;
    if Complete(e) then
      Some(Fields(AsText(FirstWithTag(c, Name)), AsText(FirstWithTag(c, Brand)),
                  AsDecimal(FirstWithTag(c, BuyingPrice)).value, AsDecimal(FirstWithTag(c, SellingPrice)).value,
                  AsInteger(FirstWithTag(c, Units)).value, AsInteger(FirstWithTag(c, SecurityStock)).value,
                  AsInteger(FirstWithTag(c, MaxStock)).value))
    else None
  }

  /**
   A missing child makes the whole element unreadable: in the loading
   constructor `item(0)` is then null and reading its text throws.
   */
  lemma MissingChildUnreadable(e: ArticleElement, tag: Tag)
    requires FirstWithTag(e.children, tag).None?
    ensures ReadFields(e).None?
  {
    assert !AsKind(tag, FirstWithTag(e.children, tag));
  }

  /** The field values an article holds, as a caller would pass them back in. */
  function FieldsOf(a: Article): Fields {
    Fields(Some(a.name), Some(a.brand), a.buyingPrice, a.sellingPrice, a.units, a.securityStock, a.maxStock)
  }

  /** The value `Emit` writes under each tag. */
  function FieldValue(a: Article, tag: Tag): Value {
    match tag
    case Name => Text(a.name)
    case Brand => Text(a.brand)
    case BuyingPrice => Decimal(a.buyingPrice)
    case SellingPrice => Decimal(a.sellingPrice)
    case Units => Integer(a.units)
    case SecurityStock => Integer(a.securityStock)
    case MaxStock => Integer(a.maxStock)
  }

  /** Looking any tag up in an emitted element finds the value written for it. */
  lemma EmittedChildFound(a: Article, tag: Tag)
    ensures FirstWithTag(Emit(a).children, tag) == Some(FieldValue(a, tag))
  {
    var c := Emit(a).children;
    match tag
    case Name => FirstWithTagAt(c, tag, 0);
    case Brand => FirstWithTagAt(c, tag, 1);
    case BuyingPrice => FirstWithTagAt(c, tag, 2);
    case SellingPrice => FirstWithTagAt(c, tag, 3);
    case Units => FirstWithTagAt(c, tag, 4);
    case SecurityStock => FirstWithTagAt(c, tag, 5);
    case MaxStock => FirstWithTagAt(c, tag, 6);
  }

  /** An element whose every tag finds the article's value reads back as that article's fields. */
  lemma ReadFieldsOfMatching(e: ArticleElement, a: Article)
    requires forall tag :: FirstWithTag(e.children, tag) == Some(FieldValue(a, tag))
    ensures ReadFields(e) == Some(FieldsOf(a))
  {
  }

  /** Every field of an article can be read back from the element `save` emits for it. */
  lemma EmitThenRead(a: Article)
    ensures ReadFields(Emit(a)) == Some(FieldsOf(a))
    ensures Emit(a).code == a.code
  {
    var e := Emit(a);
    forall tag ensures FirstWithTag(e.children, tag) == Some(FieldValue(a, tag)) {
      EmittedChildFound(a, tag);
    }
    ReadFieldsOfMatching(e, a);
  }

  lemma EmitAllThenRead(articles: seq<Article>)
    ensures forall i | 0 <= i < |articles| :: ReadFields(Emit(articles[i])) == Some(FieldsOf(articles[i]))
  {
    forall i | 0 <= i < |articles| ensures ReadFields(Emit(articles[i])) == Some(FieldsOf(articles[i])) {
      EmitThenRead(articles[i]);
    }
  }

  /** `save` loses nothing: the emitted document determines the stored list exactly. */
  lemma SaveDeterminesArticles(w1: Warehouse, w2: Warehouse, name1: string, name2: string)
    requires Save(w1, name1) == Save(w2, name2)
    ensures w1.articles == w2.articles
  {
  }
}

=== FILE: warehouse.dfy ===
/**
 The Warehouse aggregate: an ordered list of articles and the operations
 that add, delete, restock, sell, look up and overwrite them.

 The process-wide article counter of the Java class is an explicit
 `nextCode` field here, threaded through every operation. Every mutating
 operation returns an `Outcome`: the state afterwards together with whether
 the Java method returned or threw, because some failures still leave a
 trace (a construction that fails has consumed a code; a modification that
 fails half-way keeps the fields it already overwrote).

 As in the Java code, existence is checked by searching for the code, but
 increment, decrease, return and modify then reach the article by POSITION,
 `articles.get(code)`. The two agree only while every code equals its index.
 */
module Warehouses {
  import opened Failures
  import opened Articles

  datatype Warehouse = Warehouse(articles: seq<Article>, nextCode: int)

  /** The state after a `void` operation, whether it returned or threw. */
  datatype Outcome = Outcome(state: Warehouse, status: Status)

  /** A new warehouse with no articles; `counter` is the current value of the code counter. */
  function Empty(counter: int): (w: Warehouse)
    ensures w.nextCode == counter
    ensures forall code :: RequireCode(w, code) == Threw(ArticleNotExists)
  {
    Warehouse([], counter)
  }

  /**
   The list-copying constructor: the warehouse holds the given articles, in
   order. Every article was built earlier from the same process-wide
   counter, so each code lies below the counter's current value.
   */
  function FromList(articles: seq<Article>, counter: int): Warehouse
    requires forall i | 0 <= i < |articles| :: articles[i].code < counter
  {
    Warehouse(articles, counter)
  }

  // ---------------------------------------------------------------------
  // Searching by code and reaching by index
  // ---------------------------------------------------------------------

  /** Some stored article carries `code`. */
  predicate HasCode(articles: seq<Article>, code: int) {
    exists i | 0 <= i < |articles| :: articles[i].code == code
  }

  /**
   The for-each search shared by the existence check and the duplicate
   check: it stops at the first article with the given code.
   */
  method SearchCode(articles: seq<Article>, code: int) returns (found: bool, at: int)
    ensures found <==> HasCode(articles, code)
    ensures found ==> 0 <= at < |articles| && articles[at].code == code
    ensures found ==> forall j | 0 <= j < at :: articles[j].code != code
  {
    var i := 0;
    while i < |articles|
      invariant 0 <= i <= |articles|
      invariant forall j | 0 <= j < i :: articles[j].code != code
    {
      if articles[i].code == code {
        return true, i;
      }
      i := i + 1;
    }
    return false, -1;
  }

  /** `List.get(index)`: throws `IndexOutOfBoundsException` outside `0 <= index < size`. */
  function Get(articles: seq<Article>, index: int): (r: Result<Article>)
    ensures r.Ok? <==> 0 <= index < |articles|
    ensures r.Ok? ==> r.value == articles[index]
    ensures r.Fail? ==> r.error == IndexOutOfBounds
  {
    if 0 <= index < |articles| then Ok(articles[index]) else Fail(IndexOutOfBounds)
  }

  /** The existence guard: throws unless some article carries `code`. */
  function RequireCode(w: Warehouse, code: int): (s: Status)
    ensures s.Done? <==> HasCode(w.articles, code)
    ensures s.Threw? ==> s.error == ArticleNotExists
  {
    if HasCode(w.articles, code) then Done else Threw(ArticleNotExists)
  }

  // ---------------------------------------------------------------------
  // Adding
  // ---------------------------------------------------------------------

  /**
   `addArticle` (seven arguments): construct with the current counter value
   (advancing it first), then reject a code already stored, then append.
   */
  function AddArticle(w: Warehouse, f: Fields): (o: Outcome)
    ensures o.state.nextCode == w.nextCode + 1
    ensures o.status.Done? <==> AcceptedFields(f) && !HasCode(w.articles, w.nextCode)
    ensures !AcceptedFields(f) ==> o.status == Threw(Create(w.nextCode, f).error)
    ensures AcceptedFields(f) && HasCode(w.articles, w.nextCode) ==> o.status == Threw(ArticleRepeated)
    ensures o.status.Threw? ==> o.state.articles == w.articles
    ensures o.status.Done? ==>
      && |o.state.articles| == |w.articles| + 1
      && o.state.articles[..|w.articles|] == w.articles
      && Holds(o.state.articles[|w.articles|], w.nextCode, f)
  {
    var code := w.nextCode;
    var advanced := w.(nextCode := code + 1);
    match Create(code, f)
    case Fail(e) => Outcome(advanced, Threw(e))
    case Ok(a) =>
      if HasCode(w.articles, code) then Outcome(advanced, Threw(ArticleRepeated))
      else Outcome(advanced.(articles := w.articles + [a]), Done)
  }

  /** `addArticle` (five arguments): both thresholds default to zero. */
  function AddArticleDefaultStocks(w: Warehouse, name: Option<string>, brand: Option<string>,
                                   buyingPrice: real, sellingPrice: real, units: int): (o: Outcome)
    ensures o.state.nextCode == w.nextCode + 1
    ensures o.status.Done? <==>
      && ValidString(name) && ValidString(brand)
      && buyingPrice >= 0.0 && sellingPrice >= 0.0 && units >= 0
      && !HasCode(w.articles, w.nextCode)
    ensures !(ValidString(name) && ValidString(brand) && buyingPrice >= 0.0 && sellingPrice >= 0.0 && units >= 0)
      ==> o.status == Threw(Create(w.nextCode, Fields(name, brand, buyingPrice, sellingPrice, units, 0, 0)).error)
    ensures && ValidString(name) && ValidString(brand) && buyingPrice >= 0.0 && sellingPrice >= 0.0 && units >= 0
            && HasCode(w.articles, w.nextCode)
      ==> o.status == Threw(ArticleRepeated)
    ensures o.status.Threw? ==> o.state.articles == w.articles
    ensures o.status.Done? ==>
      && |o.state.articles| == |w.articles| + 1
      && o.state.articles[..|w.articles|] == w.articles
      && var a := o.state.articles[|w.articles|];
      && a.code == w.nextCode
      && Some(a.name) == name && Some(a.brand) == brand
      && a.buyingPrice == buyingPrice && a.sellingPrice == sellingPrice
      && a.units == units && a.securityStock == 0 && a.maxStock == 0
  {
    AddArticle(w, WithDefaultStocks(name, brand, buyingPrice, sellingPrice, units))
  }

  // ---------------------------------------------------------------------
  // Deleting
  // ---------------------------------------------------------------------

  /** `removeIf(art -> art.getCode() == code)`: drop every article with that code, keep the rest in order. */
  function RemoveCode(articles: seq<Article>, code: int): (r: seq<Article>)
    ensures forall a :: a in r <==> a in articles && a.code != code
    ensures !HasCode(r, code)
    ensures |r| <= |articles|
  {
    if articles == [] then []
    else
      var rest := RemoveCode(articles[1..], code);
      if articles[0].code == code then rest else [articles[0]] + rest
  }

  function DeleteArticle(w: Warehouse, code: int): (o: Outcome)
    ensures o.status.Threw? <==> !HasCode(w.articles, code)
    ensures o.status.Threw? ==> o.status.error == ArticleNotExists && o.state == w
    ensures o.status.Done? ==> o.state.articles == RemoveCode(w.articles, code)
    ensures o.status.Done? ==> !HasCode(o.state.articles, code)
    ensures o.status.Done? ==> |o.state.articles| < |w.articles|
    ensures forall a :: a in o.state.articles <==> a in w.articles && (o.status.Done? ==> a.code != code)
    ensures o.state.nextCode == w.nextCode
  {
    if !HasCode(w.articles, code) then Outcome(w, Threw(ArticleNotExists))
    else
      var i :| 0 <= i < |w.articles| && w.articles[i].code == code;
      assert w.articles[i] !in RemoveCode(w.articles, code);
      RemoveShrinks(w.articles, code, i);
      Outcome(w.(articles := RemoveCode(w.articles, code)), Done)
  }

  /** Removing a code that is present strictly shortens the list. */
  lemma {:induction false} RemoveShrinks(articles: seq<Article>, code: int, i: int)
    requires 0 <= i < |articles| && articles[i].code == code
    ensures |RemoveCode(articles, code)| < |articles|
    decreases |articles|
  {
    if i > 0 {
      RemoveShrinks(articles[1..], code, i - 1);
    }
  }

  // ---------------------------------------------------------------------
  // Stock operations, returning an article, modifying
  // ---------------------------------------------------------------------

  /** `incrementUnitsOfArticle`: search by code, then increase the article at index `code`. */
  function IncrementUnitsOfArticle(w: Warehouse, code: int, n: int): (o: Outcome)
    ensures o.state.nextCode == w.nextCode && |o.state.articles| == |w.articles|
    ensures !HasCode(w.articles, code) ==> o == Outcome(w, Threw(ArticleNotExists))
    ensures HasCode(w.articles, code) && !(0 <= code < |w.articles|) ==> o == Outcome(w, Threw(IndexOutOfBounds))
    ensures HasCode(w.articles, code) && 0 <= code < |w.articles| && n >= w.articles[code].units
      ==> o == Outcome(w, Threw(IllegalArgument(StockGuard)))
    ensures o.status.Threw? ==> o.state == w
    ensures o.status.Done? <==> HasCode(w.articles, code) && 0 <= code < |w.articles| && n < w.articles[code].units
    ensures o.status.Done? ==>
      && o.state.articles[code].units == w.articles[code].units + n
      && o.state.articles == w.articles[code := o.state.articles[code]]
      && o.state.articles[code] == w.articles[code].(units := o.state.articles[code].units)
  {
    match RequireCode(w, code)
    case Threw(e) => Outcome(w, Threw(e))
    case Done =>
      match Get(w.articles, code)
      case Fail(e) => Outcome(w, Threw(e))
      case Ok(a) =>
        match IncreaseUnits(a, n)
        case Fail(e) => Outcome(w, Threw(e))
        case Ok(a') => Outcome(w.(articles := w.articles[code := a']), Done)
  }

  /** `throwExceptionIfArticleStockAreLessThanZero`: the article at index `code` must hold at least `n`. */
  function StockCheck(w: Warehouse, code: int, n: int): (s: Result<Article>)
    ensures s.Ok? <==> 0 <= code < |w.articles| && w.articles[code].units - n >= 0
    ensures s.Ok? ==> s.value == w.articles[code]
    ensures !(0 <= code < |w.articles|) ==> s == Fail(IndexOutOfBounds)
    ensures 0 <= code < |w.articles| && w.articles[code].units - n < 0 ==> s == Fail(StockBelowZero)
  {
    var a :- Get(w.articles, code);
    if a.units - n < 0 then Fail(StockBelowZero) else Ok(a)
  }

  /**
   `decreaseUnitsOfArticle`: search by code, then the warehouse's own stock
   check, then the article's shared guard, each on the article at index `code`.
   */
  function DecreaseUnitsOfArticle(w: Warehouse, code: int, n: int): (o: Outcome)
    ensures o.state.nextCode == w.nextCode && |o.state.articles| == |w.articles|
    ensures !HasCode(w.articles, code) ==> o == Outcome(w, Threw(ArticleNotExists))
    ensures HasCode(w.articles, code) && !(0 <= code < |w.articles|) ==> o == Outcome(w, Threw(IndexOutOfBounds))
    ensures HasCode(w.articles, code) && 0 <= code < |w.articles| && n > w.articles[code].units
      ==> o == Outcome(w, Threw(StockBelowZero))
    ensures HasCode(w.articles, code) && 0 <= code < |w.articles| && n == w.articles[code].units
      ==> o == Outcome(w, Threw(IllegalArgument(StockGuard)))
    ensures o.status.Threw? ==> o.state == w
    ensures o.status.Done? <==> HasCode(w.articles, code) && 0 <= code < |w.articles| && n < w.articles[code].units
    ensures o.status.Done? ==>
      && o.state.articles[code].units == w.articles[code].units - n
      && o.state.articles[code].units > 0
      && o.state.articles == w.articles[code := o.state.articles[code]]
      && o.state.articles[code] == w.articles[code].(units := o.state.articles[code].units)
  {
    match RequireCode(w, code)
    case Threw(e) => Outcome(w, Threw(e))
    case Done =>
      match StockCheck(w, code, n)
      case Fail(e) => Outcome(w, Threw(e))
      case Ok(a) =>
        match DecreaseUnits(a, n)
        case Fail(e) => Outcome(w, Threw(e))
        case Ok(a') => Outcome(w.(articles := w.articles[code := a']), Done)
  }

  /**
   `returnArticle`: search by code; the loop that follows finds the match
   (the search just succeeded) and returns `articles.get(code)`, the article
   at index `code`, so the final `return null` is unreachable.
   */
  function ReturnArticle(w: Warehouse, code: int): (r: Result<Article>)
    ensures !HasCode(w.articles, code) ==> r == Fail(ArticleNotExists)
    ensures HasCode(w.articles, code) ==> r == Get(w.articles, code)
    ensures r.Ok? ==> r.value in w.articles
  {
    match RequireCode(w, code)
    case Threw(e) => Fail(e)
    case Done => Get(w.articles, code)
  }

  /**
   Number of setters of `modifyArticle` that run to completion before one
   throws: 0 when the name is rejected, 1 when the brand is, 2 and 3 for
   the two prices, 4 for the units, 7 when all seven setters succeed.
   */
  function SettersCompleted(f: Fields): (k: nat)
    ensures k == 7 <==> AcceptedFields(f)
    ensures k <= 7
  {
    if !ValidString(f.name) then 0
    else if !ValidString(f.brand) then 1
    else if f.buyingPrice < 0.0 then 2
    else if f.sellingPrice < 0.0 then 3
    else if f.units < 0 then 4
    else 7
  }

  /** Reference definition: `a` with the first `k` of the seven fields taken from `f`. */
  function Overwritten(a: Article, f: Fields, k: nat): Article {
    Article(
      a.code,
      if k > 0 && f.name.Some? then f.name.value else a.name,
      if k > 1 && f.brand.Some? then f.brand.value else a.brand,
      if k > 2 then f.buyingPrice else a.buyingPrice,
      if k > 3 then f.sellingPrice else a.sellingPrice,
      if k > 4 then f.units else a.units,
      if k > 5 then f.securityStock else a.securityStock,
      if k > 6 then f.maxStock else a.maxStock)
  }

  /** An article after a run of setters, and whether the run completed. */
  datatype Partial = Partial(article: Article, status: Status)

  /**
   The seven setter calls of `modifyArticle`, in source order, on one
   article. There is no rollback: when a setter throws, the earlier fields
   keep their new values and the later ones their old values.
   */
  function ApplySetters(a: Article, f: Fields): (p: Partial)
    ensures p.article == Overwritten(a, f, SettersCompleted(f))
    ensures p.status.Done? <==> AcceptedFields(f)
    ensures p.status.Threw? ==> Create(a.code, f) == Fail(p.status.error)
    ensures p.article.code == a.code
  {
    match SetName(a, f.name)
    case Fail(e) => Partial(a, Threw(e))
    case Ok(a1) =>
      match SetBrand(a1, f.brand)
      case Fail(e) => Partial(a1, Threw(e))
      case Ok(a2) =>
        match SetBuyingPrice(a2, f.buyingPrice)
        case Fail(e) => Partial(a2, Threw(e))
        case Ok(a3) =>
          match SetSellingPrice(a3, f.sellingPrice)
          case Fail(e) => Partial(a3, Threw(e))
          case Ok(a4) =>
            match SetUnits(a4, f.units)
            case Fail(e) => Partial(a4, Threw(e))
            case Ok(a5) =>
              Partial(SetMaxStock(SetSecurityStock(a5, f.securityStock), f.maxStock), Done)
  }

  /**
   `modifyArticle`: search by code, then run the setters on the article at
   index `code`, which the list holds by reference, so whatever the setters
   managed to write stays written even when one of them throws.
   */
  function ModifyArticle(w: Warehouse, code: int, f: Fields): (o: Outcome)
    ensures o.state.nextCode == w.nextCode && |o.state.articles| == |w.articles|
    ensures !HasCode(w.articles, code) ==> o == Outcome(w, Threw(ArticleNotExists))
    ensures HasCode(w.articles, code) && !(0 <= code < |w.articles|) ==> o == Outcome(w, Threw(IndexOutOfBounds))
    ensures HasCode(w.articles, code) && 0 <= code < |w.articles| ==>
      && o.state.articles == w.articles[code := Overwritten(w.articles[code], f, SettersCompleted(f))]
      && (o.status.Done? <==> AcceptedFields(f))
      && (o.status.Threw? ==> Create(code, f) == Fail(o.status.error))
  {
    match RequireCode(w, code)
    case Threw(e) => Outcome(w, Threw(e))
    case Done =>
      match Get(w.articles, code)
      case Fail(e) => Outcome(w, Threw(e))
      case Ok(a) =>
        var p := ApplySetters(a, f);
        Outcome(w.(articles := w.articles[code := p.article]), p.status)
  }
}

=== FILE: warehouse_properties.dfy ===
/**
 Properties of the warehouse operations as written: the code invariant the
 counter maintains, the order-preserving delete, the divergence between
 lookup by code and access by index, the shared stock guard seen from the
 warehouse, and the non-atomic modification.
 */
module WarehouseProperties {
  import opened Failures
  import opened Articles
  import opened Warehouses

  // ---------------------------------------------------------------------
  // The code invariant
  // ---------------------------------------------------------------------

  predicate CodesIncreasing(articles: seq<Article>) {
    forall i, j | 0 <= i < j < |articles| :: articles[i].code < articles[j].code
  }

  predicate CodesBelow(articles: seq<Article>, bound: int) {
    forall i | 0 <= i < |articles| :: articles[i].code < bound
  }

  predicate UniqueCodes(articles: seq<Article>) {
    forall i, j | 0 <= i < |articles| && 0 <= j < |articles| && i != j :: articles[i].code != articles[j].code
  }

  /**
   What the counter guarantees while every stored article came from it:
   codes increase along the list and all lie below the next code.
   */
  predicate Inv(w: Warehouse) {
    CodesIncreasing(w.articles) && CodesBelow(w.articles, w.nextCode)
  }

  lemma IncreasingIsUnique(articles: seq<Article>)
    requires CodesIncreasing(articles)
    ensures UniqueCodes(articles)
  {
  }

  /** A new, empty warehouse satisfies the invariant whatever the counter holds. */
  lemma EmptyInv(counter: int)
    ensures Inv(Empty(counter))
    ensures AddArticle(Empty(counter), Fields(Some("A"), Some("B"), 0.0, 0.0, 0, 0, 0)).status.Done?
  {
  }

  /**
   The list-copying constructor keeps the caller's order, so the copy need
   not have increasing codes; every code still lies below the counter, so
   an add into the copy never trips the duplicate check.
   */
  lemma CopiedListNeverDuplicates(articles: seq<Article>, counter: int, f: Fields)
    requires forall i | 0 <= i < |articles| :: articles[i].code < counter
    ensures CodesBelow(FromList(articles, counter).articles, counter)
    ensures AddArticle(FromList(articles, counter), f).status.Done? <==> AcceptedFields(f)
  {
    DuplicateCheckNeverFires(FromList(articles, counter), f);
  }

  /** Two articles copied in descending code order break the ordering half of the invariant. */
  lemma CopiedListMayBeUnordered(a: Article, b: Article)
    requires a.code < b.code
    ensures var w := FromList([b, a], b.code + 1);
      && !CodesIncreasing(w.articles)
      && !Inv(w)
      && CodesBelow(w.articles, w.nextCode)
  {
    var w := FromList([b, a], b.code + 1);
    assert w.articles[0] == b && w.articles[1] == a;
  }

  /** A successful or failed add keeps the invariant: the new code exceeds every stored one. */
  lemma AddKeepsInv(w: Warehouse, f: Fields)
    requires Inv(w)
    ensures Inv(AddArticle(w, f).state)
  {
  }

  /** Every code in the list exceeds `bound`. */
  predicate CodesAbove(articles: seq<Article>, bound: int) {
    forall i | 0 <= i < |articles| :: articles[i].code > bound
  }

  lemma TailIncreasing(articles: seq<Article>)
    requires articles != [] && CodesIncreasing(articles)
    ensures CodesIncreasing(articles[1..]) && CodesAbove(articles[1..], articles[0].code)
  {
  }

  lemma ConsIncreasing(a: Article, articles: seq<Article>)
    requires CodesIncreasing(articles) && CodesAbove(articles, a.code)
    ensures CodesIncreasing([a] + articles)
  {
  }

  /** Removing entries never introduces a code the list did not hold. */
  lemma RemoveKeepsAbove(articles: seq<Article>, code: int, bound: int)
    requires CodesAbove(articles, bound)
    ensures CodesAbove(RemoveCode(articles, code), bound)
  {
  }

  /** Removing by code keeps codes increasing: the result is a subsequence. */
  lemma {:induction false} RemoveKeepsIncreasing(articles: seq<Article>, code: int)
    requires CodesIncreasing(articles)
    ensures CodesIncreasing(RemoveCode(articles, code))
    decreases |articles|
  {
    if articles != [] {
      var tail := articles[1..];
      TailIncreasing(articles);
      RemoveKeepsIncreasing(tail, code);
      if articles[0].code != code {
        RemoveKeepsAbove(tail, code, articles[0].code);
        ConsIncreasing(articles[0], RemoveCode(tail, code));
      }
    }
  }

  lemma DeleteKeepsInv(w: Warehouse, code: int)
    requires Inv(w)
    ensures Inv(DeleteArticle(w, code).state)
  {
    var o := DeleteArticle(w, code);
    if o.status.Done? {
      RemoveKeepsIncreasing(w.articles, code);
      forall i | 0 <= i < |o.state.articles| ensures o.state.articles[i].code < o.state.nextCode {
        var a := o.state.articles[i];
        assert a in w.articles;
      }
    }
  }

  lemma IncrementKeepsInv(w: Warehouse, code: int, n: int)
    requires Inv(w)
    ensures Inv(IncrementUnitsOfArticle(w, code, n).state)
  {
  }

  lemma DecreaseKeepsInv(w: Warehouse, code: int, n: int)
    requires Inv(w)
    ensures Inv(DecreaseUnitsOfArticle(w, code, n).state)
  {
  }

  lemma ModifyKeepsInv(w: Warehouse, code: int, f: Fields)
    requires Inv(w)
    ensures Inv(ModifyArticle(w, code, f).state)
  {
  }

  /**
   The duplicate check compares codes only, and while every stored code is
   below the counter it never fires: an add fails exactly when construction
   rejects a field. The invariant implies this premise.
   */
  lemma DuplicateCheckNeverFires(w: Warehouse, f: Fields)
    requires CodesBelow(w.articles, w.nextCode)
    ensures AddArticle(w, f).status.Done? <==> AcceptedFields(f)
    ensures AddArticle(w, f).status != Threw(ArticleRepeated)
  {
  }

  /** The five-argument add is the seven-argument add with both thresholds zero. */
  lemma DefaultStocksAddIsFullAdd(w: Warehouse, name: Option<string>, brand: Option<string>,
                                  buyingPrice: real, sellingPrice: real, units: int)
    ensures AddArticleDefaultStocks(w, name, brand, buyingPrice, sellingPrice, units)
         == AddArticle(w, Fields(name, brand, buyingPrice, sellingPrice, units, 0, 0))
  {
  }

  /**
   No (name, brand) uniqueness is enforced: adding the same name and brand
   twice succeeds twice, leaving two stored articles that compare equal.
   */
  lemma SameNameAndBrandAddedTwice(w: Warehouse, f: Fields)
    requires Inv(w) && AcceptedFields(f)
    ensures var o1 := AddArticle(w, f);
      var o2 := AddArticle(o1.state, f);
      && o1.status.Done? && o2.status.Done?
      && |o2.state.articles| == |w.articles| + 2
      && Equals(o2.state.articles[|w.articles|], Some(o2.state.articles[|w.articles| + 1]))
  {
  }

  /**
   Codes are consumed even by failed constructions: after a rejected add
   followed by an accepted one, the stored code is two above the old counter.
   */
  lemma FailedAddConsumesCode(w: Warehouse, bad: Fields, good: Fields)
    requires !AcceptedFields(bad) && AcceptedFields(good) && Inv(w)
    ensures var o1 := AddArticle(w, bad);
      var o2 := AddArticle(o1.state, good);
      && o1.status.Threw? && o2.status.Done?
      && o2.state.articles[|w.articles|].code == w.nextCode + 1
  {
  }

  // ---------------------------------------------------------------------
  // Delete keeps the others in order
  // ---------------------------------------------------------------------

  lemma {:induction false} RemoveAbsentIsIdentity(articles: seq<Article>, code: int)
    requires !HasCode(articles, code)
    ensures RemoveCode(articles, code) == articles
    decreases |articles|
  {
    if articles != [] {
      assert articles[0].code != code;
      RemoveAbsentIsIdentity(articles[1..], code);
      assert [articles[0]] + articles[1..] == articles;
    }
  }

  /**
   `removeIf` filters piecewise: removing from a concatenation removes from
   each part and keeps the parts in order. With `RemoveCodeSingleton` this
   fixes the result completely, duplicates included, whatever the codes.
   */
  lemma {:induction false} RemoveCodeAppend(xs: seq<Article>, ys: seq<Article>, code: int)
    ensures RemoveCode(xs + ys, code) == RemoveCode(xs, code) + RemoveCode(ys, code)
    decreases |xs|
  {
    if xs == [] {
      assert xs + ys == ys;
    } else {
      assert (xs + ys)[1..] == xs[1..] + ys;
      RemoveCodeAppend(xs[1..], ys, code);
    }
  }

  /** A single article is kept exactly when its code differs. */
  lemma RemoveCodeSingleton(a: Article, code: int)
    ensures RemoveCode([a], code) == if a.code == code then [] else [a]
  {
  }

  lemma TailUnique(articles: seq<Article>)
    requires articles != [] && UniqueCodes(articles)
    ensures UniqueCodes(articles[1..])
    ensures !HasCode(articles[1..], articles[0].code)
  {
  }

  /** With unique codes, deleting code `c` removes exactly the one entry holding it. */
  lemma {:induction false} RemoveIsSplice(articles: seq<Article>, code: int, i: int)
    requires UniqueCodes(articles)
    requires 0 <= i < |articles| && articles[i].code == code
    ensures RemoveCode(articles, code) == articles[..i] + articles[i + 1..]
    decreases |articles|
  {
    var tail := articles[1..];
    TailUnique(articles);
    if i == 0 {
      RemoveAbsentIsIdentity(tail, code);
    } else {
      RemoveIsSplice(tail, code, i - 1);
      assert RemoveCode(articles, code) == [articles[0]] + RemoveCode(tail, code);
      SpliceCons(articles, i);
    }
  }

  /** Splicing out entry `i > 0` commutes with putting the head back on. */
  lemma SpliceCons(xs: seq<Article>, i: int)
    requires 0 < i < |xs|
    ensures [xs[0]] + (xs[1..][..i - 1] + xs[1..][i..]) == xs[..i] + xs[i + 1..]
  {
  }

  /** Under the invariant, a successful delete is the list with that one entry spliced out. */
  lemma DeleteRemovesOneEntry(w: Warehouse, code: int, i: int)
    requires Inv(w) && 0 <= i < |w.articles| && w.articles[i].code == code
    ensures DeleteArticle(w, code).status.Done?
    ensures DeleteArticle(w, code).state.articles == w.articles[..i] + w.articles[i + 1..]
  {
    IncreasingIsUnique(w.articles);
    RemoveIsSplice(w.articles, code, i);
  }

  /** After a delete, looking the code up fails with "article does not exist". */
  lemma DeleteThenReturnFails(w: Warehouse, code: int)
    requires HasCode(w.articles, code)
    ensures ReturnArticle(DeleteArticle(w, code).state, code) == Fail(ArticleNotExists)
  {
  }

  // ---------------------------------------------------------------------
  // Code versus index
  // ---------------------------------------------------------------------

  /** Every article sits at the index equal to its code. */
  predicate IndexIsCode(articles: seq<Article>) {
    forall i | 0 <= i < |articles| :: articles[i].code == i
  }

  /** The state of a process that has only ever added, successfully: codes 0, 1, 2, ... */
  predicate Dense(w: Warehouse) {
    IndexIsCode(w.articles) && w.nextCode == |w.articles|
  }

  /** While codes equal indices, the search by code and the access by index agree. */
  lemma IndexedLookupAgrees(w: Warehouse, code: int)
    requires IndexIsCode(w.articles)
    ensures HasCode(w.articles, code) <==> 0 <= code < |w.articles|
    ensures HasCode(w.articles, code) ==> ReturnArticle(w, code) == Ok(w.articles[code])
    ensures HasCode(w.articles, code) ==> ReturnArticle(w, code).value.code == code
  {
    if 0 <= code < |w.articles| {
      assert w.articles[code].code == code;
    }
  }

  /** A successful add keeps a dense warehouse dense. */
  lemma AddKeepsDense(w: Warehouse, f: Fields)
    requires Dense(w) && AcceptedFields(f)
    ensures AddArticle(w, f).status.Done?
    ensures Dense(AddArticle(w, f).state)
  {
  }

  /** Add then return: the article comes back with the new code and the supplied fields. */
  lemma AddThenReturn(w: Warehouse, f: Fields)
    requires Dense(w) && AcceptedFields(f)
    ensures var o := AddArticle(w, f);
      var r := ReturnArticle(o.state, w.nextCode);
      r.Ok? && Holds(r.value, w.nextCode, f)
  {
  }

  /**
   A rejected construction breaks density: the counter moves on while the
   list does not grow, so the next accepted article is stored at an index
   one below its code, and returning it by its code runs off the list.
   */
  lemma FailedAddBreaksIndexing(w: Warehouse, bad: Fields, good: Fields)
    requires Dense(w) && !AcceptedFields(bad) && AcceptedFields(good)
    ensures var o1 := AddArticle(w, bad);
      var o2 := AddArticle(o1.state, good);
      && o2.status.Done?
      && HasCode(o2.state.articles, w.nextCode + 1)
      && ReturnArticle(o2.state, w.nextCode + 1) == Fail(IndexOutOfBounds)
  {
  }

  /** Three articles with codes 0, 1, 2 at indices 0, 1, 2. */
  function SampleWarehouse(): Warehouse {
    Warehouse([Article(0, "Widget", "Acme", 10.0, 15.0, 50, 5, 200),
               Article(1, "Gadget", "Acme", 3.5, 7.25, 10, 0, 0),
               Article(2, "Gizmo", "Zeta", 1.0, 2.0, 30, 0, 0)], 3)
  }

  /**
   After deleting code 0, codes and indices diverge: incrementing the
   article with code 1 changes the article with code 2 instead, and
   returning code 2 throws `IndexOutOfBoundsException`.
   */
  lemma DeleteMakesIndexDiverge()
    ensures var w := DeleteArticle(SampleWarehouse(), 0).state;
      && w.articles == SampleWarehouse().articles[1..]
      && HasCode(w.articles, 1) && HasCode(w.articles, 2)
      && IncrementUnitsOfArticle(w, 1, 5).status.Done?
      && IncrementUnitsOfArticle(w, 1, 5).state.articles[0] == w.articles[0]
      && IncrementUnitsOfArticle(w, 1, 5).state.articles[1].code == 2
      && IncrementUnitsOfArticle(w, 1, 5).state.articles[1].units == 35
      && ReturnArticle(w, 1) == Ok(w.articles[1])
      && ReturnArticle(w, 1).value.code == 2
      && ReturnArticle(w, 2) == Fail(IndexOutOfBounds)
  {
  }

  // ---------------------------------------------------------------------
  // Stock operations seen from the warehouse
  // ---------------------------------------------------------------------

  /**
   Decreasing by `n` when `code` is stored and is also a valid index, so
   that the article at index `code` is the one acted on:
   more than the stock fails the warehouse's stock check; exactly the
   stock passes it but fails the article's guard; less than the stock
   succeeds. Units are unchanged on every failure.
   */
  lemma DecreaseTrichotomy(w: Warehouse, code: int, n: int)
    requires HasCode(w.articles, code) && 0 <= code < |w.articles|
    ensures var o := DecreaseUnitsOfArticle(w, code, n);
      && (n > w.articles[code].units ==> o.status == Threw(StockBelowZero))
      && (n == w.articles[code].units ==> o.status == Threw(IllegalArgument(StockGuard)))
      && (n < w.articles[code].units ==> o.status.Done? && o.state.articles[code].units == w.articles[code].units - n)
      && (o.status.Threw? ==> o.state.articles == w.articles)
  {
  }

  /**
   Incrementing by `n` when `code` is stored and is also a valid index:
   succeeds exactly when `n` is
   below the current stock, so restocking an empty article is rejected and a
   negative amount is accepted.
   */
  lemma IncrementAsWritten(w: Warehouse, code: int, n: int)
    requires HasCode(w.articles, code) && 0 <= code < |w.articles|
    ensures var o := IncrementUnitsOfArticle(w, code, n);
      && (o.status.Done? <==> n < w.articles[code].units)
      && (o.status.Threw? ==> o.status.error == IllegalArgument(StockGuard) && o.state == w)
      && (o.status.Done? ==> o.state.articles[code].units == w.articles[code].units + n)
  {
  }

  /** A negative restock beyond the stock is accepted and leaves a negative stock. */
  lemma NegativeIncrementAccepted(w: Warehouse, code: int, k: int)
    requires HasCode(w.articles, code) && 0 <= code < |w.articles|
    requires 0 <= w.articles[code].units < k
    ensures IncrementUnitsOfArticle(w, code, -k).status.Done?
    ensures IncrementUnitsOfArticle(w, code, -k).state.articles[code].units < 0
  {
  }

  // ---------------------------------------------------------------------
  // Modification without rollback
  // ---------------------------------------------------------------------

  /**
   When a price is rejected, name and brand have already been overwritten
   while units and both thresholds keep their old values.
   */
  lemma ModifyStopsAtBadPrice(w: Warehouse, code: int, f: Fields)
    requires IndexIsCode(w.articles) && 0 <= code < |w.articles|
    requires ValidString(f.name) && ValidString(f.brand) && f.buyingPrice < 0.0
    ensures var o := ModifyArticle(w, code, f);
      var old_ := w.articles[code];
      var new_ := o.state.articles[code];
      && o.status == Threw(IllegalArgument(NegativePrice))
      && new_.name == f.name.value && new_.brand == f.brand.value
      && new_.buyingPrice == old_.buyingPrice && new_.sellingPrice == old_.sellingPrice
      && new_.units == old_.units
      && new_.securityStock == old_.securityStock && new_.maxStock == old_.maxStock
  {
  }

  /** When every field is accepted, the article holds exactly the new values under its old code. */
  lemma ModifyReplacesAllFields(w: Warehouse, code: int, f: Fields)
    requires IndexIsCode(w.articles) && 0 <= code < |w.articles| && AcceptedFields(f)
    ensures var o := ModifyArticle(w, code, f);
      o.status.Done? && Holds(o.state.articles[code], code, f)
  {
  }
}
